=== FILE: README.md ===
# Rendezvous control messages of ROOT-Sim

ROOT-Sim is an optimistic (Time Warp) parallel discrete-event simulator. Its cross-state
extension lets one logical process (LP) synchronise with others in a *rendezvous*. An
LP that starts a rendezvous sends a `RENDEZVOUS_START` to each peer. A peer that executes
the START blocks on the session and answers with a `RENDEZVOUS_ACK`. When the starter has
finished its event, it sends a `RENDEZVOUS_UNBLOCK` to every peer in its synchronisation
table, and each peer waiting on that session is released. When a rendezvous event is
rolled back, each affected session is undone with a `RENDEZVOUS_ROLLBACK` antimessage.
Group scheduling (GLP) adds three messages and two vote counters per group.
`NULL_LOG_MESSAGE` votes on the log counter. `SYNCH_GROUP` votes on the synchronisation
counter, and so does a START that is the group's recorded initial message. `CLOSE_GROUP`
only checkpoints and logs its receiver.

This project models `src/scheduler/control.c`, built with `HAVE_CROSS_STATE`, together
with the message record of `src/core/core.h`. It covers six handlers:

- `unblock_synchronized_objects` releases the peers of the current session.
- `rollback_control_message` truncates the rendezvous queue and emits antimessages.
- `anti_control_message` consumes a rendezvous antimessage and sets `bound`.
- `reprocess_control_msg` decides what is re-executed during silent execution.
- `receive_control_msg` is the dequeue-time filter.
- `process_control_msg` is the execution-time filter.

Each handler is a pure function. The two message filters, `ReceiveControlMsg` and
`ProcessControlMsg`, take:

- the receiver's LP record;
- the record of that LP's group;
- the message;
- an `Env`, which holds the control-tag values, whether `HAVE_GLP_SCH_MODULE` is set, and
  the answers of the group-scheduling oracles.

They return the new records, the ordered list of requests they make of other parts of the
kernel, and `forward`, the C `bool` result. The requests are `Send`, forced checkpoints,
`LogState`, writes of the scheduler cursor, and group calls. `rootsim_error(true, …)`
becomes `Fatal`. The other four handlers have narrower signatures:

- `UnblockSynchronizedObjects(lay, lid, lp)` returns the new LP record and its UNBLOCKs.
- `RollbackControlMessage(lay, lp, simtime)` returns the new LP record and its antimessages.
- `AntiControlMessage(env, lp, m)` returns the new receiver record, its group requests and
  `forward`.
- `ReprocessControlMsg(lay, m)` returns a bare `bool`.

Files:

- `wrappers.dfy` defines `Option` and `Outcome`.
- `messages.dfy` defines `msg_t`, the tag layout and the three messages the layer builds.
- `lp_state.dfy` defines the LP record, the group record, the action trace and the build
  environment.
- `queues.dfy` holds the list walks: the backward walk past later entries, the backward
  search by mark, the `bound` walk and the ordered insert.
- `control.dfy` holds the handlers.
- `control_properties.dfy` holds the properties that relate several calls.

## Model

| member | source | states |
|---|---|---|
| Messages.RollbackNotice | src/scheduler/control.c:73-81 | the antimessage for a queue entry is a ROLLBACK of kind `other`, from the entry's receiver back to its sender, with the entry's timestamp, send time and session mark, and no identifier or payload |
| Messages.AckFor | src/scheduler/control.c:319-326 | the ACK for a START is positive, goes from the START's receiver back to its sender, is sent and stamped at the START's time, carries its session mark, and has no identifier or payload |
| Messages.UnblockFor | src/scheduler/control.c:44-51 | the UNBLOCK to a peer is positive, from the LP to that peer, stamped and sent at the given time, with the given session mark, and no identifier or payload |
| Queues.SplitPoint | src/scheduler/control.c:70-71 | the backward walk from the tail stops at the longest suffix whose entries are all later than the time, and the entry in front of it is not later |
| Queues.SortedPrefixNotLater | src/scheduler/control.c:70-88 | on a timestamp-sorted queue, every entry in front of the walk's stopping point is at or before the time |
| Queues.LastWithMark | src/scheduler/control.c:105-112 | the search finds nothing exactly when no entry has the mark, and otherwise returns the matching entry closest to the tail |
| Queues.WalkBack | src/scheduler/control.c:118-123 | `bound` stops at the nearest entry strictly earlier than the match, or at the head, and every entry it steps over is at or after the match's time |
| Queues.SortedBoundSkipsTies | src/scheduler/control.c:118-123 | on a sorted input queue, the entries `bound` steps over are exactly the match's ties, and everything up to `bound` is strictly earlier unless the walk stopped at the head |
| Queues.InsertByTime | src/scheduler/control.c:292 | the START is inserted once, after every entry not later than it, and a sorted queue stays sorted |
| Control.UnblockNotices | src/scheduler/control.c:43-54 | one UNBLOCK per table slot 1..n, in table order |
| Control.UnblockSynchronizedObjects | src/scheduler/control.c:39-58 | one UNBLOCK to each peer in `ECS_synch_table[1..ECS_index]`, each stamped with the LP's virtual time, positive, carrying the session mark and with no identifier or payload; then the session mark and `ECS_index` are cleared and nothing else changes |
| Control.RollbackNotices | src/scheduler/control.c:73-83 | one antimessage per removed entry, tail first |
| Control.RollbackControlMessage | src/scheduler/control.c:61-89 | an empty queue is left alone; otherwise the queue keeps a prefix whose last entry is not later than `simtime`, every removed entry is later, and one antimessage per removed entry goes back to its sender, tail first; nothing else in the LP changes |
| Control.ConsumeRendezvous | src/scheduler/control.c:114-155 | a matched entry loses its mark; if it is already executed the LP enters rollback with `bound` placed by the walk and `rollback_group` requested when the group check holds, otherwise state and `bound` stay; the session is reset only when it is the one waited on |
| Control.AntiControlMessage | src/scheduler/control.c:92-160 | a non-ROLLBACK is passed on untouched; a ROLLBACK is always consumed, even when no entry matches (then nothing changes); otherwise the match closest to the tail is consumed as above and no other field changes |
| Control.ReprocessControlMsg | src/scheduler/control.c:163-171 | true exactly for types below the control range, and such a type is never a control type |
| Control.ReceiveAck | src/scheduler/control.c:197-211 | an ACK for the awaited session makes a non-rolling-back LP ready to synchronise, and its group too when the LP anchors the group at the ACK's time; otherwise nothing changes |
| Control.ReceiveUnblock | src/scheduler/control.c:213-248 | a rolling-back LP ignores it; otherwise the trace is exactly: set the cursor to the receiver at the UNBLOCK's time, checkpoint and log it, then, when a group log round opens, a group checkpoint and the flush of outgoing messages, and finally clear the cursor; a matching session releases the LP; a group log round opens exactly when the log was taken, the LP anchors the group and the group has more than one member, and then the group waits for the log with its counter set to the group size; otherwise a released LP that anchors its group makes the group READY |
| Control.ReceiveControlMsg | src/scheduler/control.c:175-270 | types outside the control range and START, ROLLBACK, NULL_LOG, SYNCH_GROUP and CLOSE_GROUP pass untouched; ACK and UNBLOCK act and are consumed; any other control type is fatal |
| Control.CountVote | src/scheduler/control.c:305-315 | the vote that completes the group resets the counter and switches the group state; a counter below the group size stays below it |
| Control.ProcessStart | src/scheduler/control.c:291-328 | the START is queued in time order, the LP blocks on its session, and the only output is the ACK, back to the sender with the START's time and mark and with no identifier or payload; an anchoring receiver puts its group in WAIT_FOR_UNBLOCK; a START that is the group's recorded initial message, on a non-anchoring receiver inside the group's window, casts one vote, and the vote that completes the group resets the counter and leaves the group in WAIT_FOR_UNBLOCK; otherwise the group is unchanged, and a vote counter below the group size stays below it |
| Control.ProcessNullLog | src/scheduler/control.c:338-350 | with the group module the log counter drops by one, the group is READY when it reaches zero and nothing else in the group changes, the LP waits for the log, and only a message from another LP triggers a checkpoint and log; without the module nothing happens |
| Control.ProcessCloseGroup | src/scheduler/control.c:352-357 | the message is consumed; with the group module the receiver is checkpointed and logged, and no record changes |
| Control.ProcessSynchGroup | src/scheduler/control.c:360-384 | with the group module, fatal exactly when the group is READY_FOR_SYNCH; a group waiting for its members takes one vote and the LP waits for the group; otherwise nothing happens |
| Control.ProcessControlMsg | src/scheduler/control.c:274-394 | types outside the control range pass through; the four known execution-time tags act and are consumed; every other control type, ACK, UNBLOCK and ROLLBACK included, is fatal, and so is SYNCH_GROUP on a READY_FOR_SYNCH group |
| ControlProperties.RollbackLeavesNothingLater | src/scheduler/control.c:61-89 | on a sorted rendezvous queue nothing later than the rollback time survives, and the rest stays sorted |
| ControlProperties.RollbackComposes | src/scheduler/control.c:61-89 | rolling back to `t1` and then to an earlier `t2` leaves the same queue and sends the same antimessages in the same order as rolling back to `t2` at once |
| ControlProperties.NoticesSplit | src/scheduler/control.c:70-88 | the antimessages for a long suffix are those for the shorter suffix followed by those for the entries in between |
| ControlProperties.RollbackIdempotent | src/scheduler/control.c:61-89 | a second rollback to the same time sends nothing and changes nothing |
| ControlProperties.StartThenRollbackUndoes | src/scheduler/control.c:61-89 | executing a START later than everything queued and then rolling back before it restores the queue and sends one antimessage, to the LP the ACK went to and with the ACK's mark |
| ControlProperties.AckReleasesStarter | src/scheduler/control.c:197-211 | the ACK a START produces goes to the starter, and when the starter waits on that session it becomes ready to synchronise |
| ControlProperties.StartThenUnblockReleases | src/scheduler/control.c:213-225 | after a START blocks the LP, an UNBLOCK with the same mark releases it to READY and clears its waits |
| ControlProperties.NoticeRollsBackStarter | src/scheduler/control.c:92-160 | the antimessage for a START reaches the starter; when the starter has already executed the session's entry it rolls back with `bound` at or before it, and the entry's mark is consumed |
| ControlProperties.AntiIdempotent | src/scheduler/control.c:92-160 | once the only entry carrying a non-zero mark is consumed, a repeated antimessage changes nothing |
| ControlProperties.AntiRollsBackTies | src/scheduler/control.c:115-123 | on a sorted input queue the rollback rewinds exactly the match's ties, and every entry up to `bound` is earlier |
| ControlProperties.ReprocessOnlyApplication | src/scheduler/control.c:163-171 | a message re-executed during silent execution is application traffic to the receive-time and execution-time filters |
| ControlProperties.ReprocessSkipsTypesAboveRange | src/scheduler/control.c:166-170 | a type above the control range is delivered to the application by both filters but is not re-executed during silent execution |
| ControlProperties.AckIdempotent | src/scheduler/control.c:197-211 | receiving the same ACK twice has the effect of receiving it once |
| ControlProperties.StaleUnblockStillSnapshots | src/scheduler/control.c:213-248 | an UNBLOCK for a session no longer waited on leaves the LP alone but still checkpoints and logs it |
| ControlProperties.UnblockIdempotent | src/scheduler/control.c:39-58 | after the peers are released a second release sends nothing |
| ControlProperties.UnblockReleasesPeers | src/scheduler/control.c:39-58 | each UNBLOCK sent on release goes to its table slot and frees that peer when it waits on the session |
| ControlProperties.VoteNeverReachesGroupSize | src/scheduler/control.c:305-315 | no executed message leaves the synchronisation counter at or above the group size |
| ControlProperties.ReceiveCastsNoVote | src/scheduler/control.c:175-270 | receiving a message never touches the synchronisation counter or the group size |
| ControlProperties.SynchRoundCloses | src/scheduler/control.c:360-384 | a group waiting for its members returns to READY with the counter reset once the remaining members' SYNCH_GROUPs execute |
| ControlProperties.LogRoundCloses | src/scheduler/control.c:234-241 | after an UNBLOCK opens a group log round, one NULL_LOG_MESSAGE per member brings the group back to READY with the log counter at zero |
| ControlProperties.LogVotesDrain | src/scheduler/control.c:338-350 | as many NULL_LOG_MESSAGEs as the log counter holds drive it to zero and the group to READY |

## Left out

- Sending, checkpointing, state logging, `send_outgoing_msgs`, `force_checkpoint_group` and
  `rollback_group` live outside `control.c`. They are recorded as actions in the trace, and
  their own effects are not modelled.
- `check_start_group` and `verify_time_group` (`group.h`) are oracles in `Env`. So is the
  value `LogState` returns, because its implementation is not part of this model.
- The oracles give one answer per handler call. `control.c` calls `check_start_group`
  twice in the START case (lines 301 and 304) and in the UNBLOCK case (lines 222 and 235),
  with a write to the group's state in between. The model takes the answers not to depend
  on the group record the handler writes.
- The numeric values of the control tags and of `MIN_VALUE_CONTROL`/`MAX_VALUE_CONTROL` are
  defined in a header that is not part of this model. They are a parameter, limited to
  seven tags. The tags are distinct because the C `switch` requires distinct labels. That
  each tag lies inside the control range is an assumption. A tag outside it would make its
  `case` dead code behind the range checks at lines 187 and 284.
- `list_insert` (`list.c`) is not part of this model. The insert is taken to place a new
  entry after its ties, found by the same backward walk the rollback uses.
- The debug `printf`s, and the `ERRORE` diagnostics an antimessage for a future entry
  prints, have no effect on state and are left out. This includes the GLP `lvt` they read.
- `LidToGid`, the LP table `LPS` and the group table `GLPS` are left out. Identifiers are
  taken to be global ids, and each handler is given the records it touches.
- `ProcessStart` compares `initial_group_time` with the message by value, where the C code
  compares pointers.
- Concurrency between worker threads is left out, and so is floating point: `simtime_t` is
  a real, compared exactly.
- `LPState.Elsewhere` stands for every LP state that only the scheduler sets.
- Where the code and its own comments or names suggest different behaviour, the model
  follows the code in three places:
  - `reprocess_control_msg` is described at `control.c` line 162 as deciding whether a
    control message is re-executed during silent execution. The test at line 166 only
    accepts types below `MIN_VALUE_CONTROL`, so no control message is ever re-executed.
    A type above the range is not re-executed either, even though both other filters
    deliver it to the application. `ReprocessSkipsTypesAboveRange` shows this.
  - The comment at line 117 sets `bound` "to the message that caused ECS". The walk at
    lines 119-123 moves it further back, to the nearest entry strictly earlier than the
    match, or to the head. It does not stop at the match or at the first of its ties.
  - The comment at line 91 says `anti_control_message` returns `false` when the
    antimessage is recognised and processed. Lines 110-111 also return `false` for a
    ROLLBACK that matches no entry of the input queue, and that ROLLBACK changes nothing.
    `AntiControlMessage` keeps this behaviour.

=== FILE: control.dfy ===
/**
 The rendezvous (cross-state) control-message handlers of src/scheduler/control.c, in the
 build with HAVE_CROSS_STATE. Each handler is a pure function: it takes the LP record it acts
 on (for the message handlers, the record of the message's receiver), the record of that
 LP's group, the message and the build, and returns the new records together with the
 requests it makes of its collaborators, in order. `forward` is the handler's C result.
 */
module Control {
  import opened Wrappers
  import opened Messages
  import opened LogicalProcess
  import opened Queues

  /** What a message handler leaves behind. */
  datatype Step = Step(lp: LP, group: Group, out: seq<Action>, forward: bool)

  /** What a handler that returns nothing leaves behind. */
  datatype Update = Update(lp: LP, out: seq<Action>)

  /** What `anti_control_message` leaves behind; `forward` false means "handled here". */
  datatype Reply = Reply(lp: LP, out: seq<Action>, forward: bool)

  /** A forced checkpoint of `lid` followed by logging its state. */
  function Snapshot(lid: nat): seq<Action> {
    [ForceCheckpoint(lid), LogState(lid)]
  }

  // ---------------------------------------------------------------------------------------
  // unblock_synchronized_objects

  /** The UNBLOCKs for peers `ecsSynchTable[1..n]`, in table order. */
  function UnblockNotices(lay: Layout, lid: nat, lp: LP, n: nat): (out: seq<Action>)
    requires n < |lp.ecsSynchTable|
    ensures |out| == n
    ensures forall j :: 0 <= j < n ==>
      out[j] == Send(UnblockFor(lay, lid, lp.ecsSynchTable[j + 1], lp.lvt, lp.waitOnRendezvous))
  {
    if n == 0 then []
    else UnblockNotices(lay, lid, lp, n - 1)
         + [Send(UnblockFor(lay, lid, lp.ecsSynchTable[n], lp.lvt, lp.waitOnRendezvous))]
  }

  /**
   Releases every peer LP `lid` synchronised with during the current event: one UNBLOCK per
   peer, stamped with the LP's virtual time and its current session mark; then the session
   is closed.
   */
  function UnblockSynchronizedObjects(lay: Layout, lid: nat, lp: LP): (r: Update)
    requires lp.ecsIndex < |lp.ecsSynchTable|
    ensures r.lp == lp.(waitOnRendezvous := 0, ecsIndex := 0)
    ensures |r.out| == lp.ecsIndex
    ensures forall j :: 0 <= j < |r.out| ==>
      r.out[j] == Send(UnblockFor(lay, lid, lp.ecsSynchTable[j + 1], lp.lvt, lp.waitOnRendezvous))
  {
    Update(lp.(waitOnRendezvous := 0, ecsIndex := 0), UnblockNotices(lay, lid, lp, lp.ecsIndex))
  }

  // ---------------------------------------------------------------------------------------
  // rollback_control_message

  /** One rollback antimessage per entry of `q[k..]`, tail first. */
  function RollbackNotices(lay: Layout, q: seq<Msg>, k: nat): (out: seq<Action>)
    requires k <= |q|
    ensures |out| == |q| - k
    ensures forall j :: 0 <= j < |out| ==> out[j] == Send(RollbackNotice(lay, q[|q| - 1 - j]))
    decreases |q|
  {
    if k == |q| then []
    else [Send(RollbackNotice(lay, q[|q| - 1]))] + RollbackNotices(lay, q[..|q| - 1], k)
  }

  /**
   Rolls the rendezvous queue back to `simtime`: drops the longest suffix of entries later
   than `simtime` and tells the other side of each dropped session, tail first.
   */
  function RollbackControlMessage(lay: Layout, lp: LP, simtime: Time): (r: Update)
    ensures lp.rendezvousQueue == [] ==> r == Update(lp, [])
    ensures r.lp == lp.(rendezvousQueue := r.lp.rendezvousQueue)
    ensures r.lp.rendezvousQueue <= lp.rendezvousQueue
    ensures r.lp.rendezvousQueue == []
            || r.lp.rendezvousQueue[|r.lp.rendezvousQueue| - 1].timestamp <= simtime
    ensures forall i :: |r.lp.rendezvousQueue| <= i < |lp.rendezvousQueue| ==>
              lp.rendezvousQueue[i].timestamp > simtime
    ensures |r.out| == |lp.rendezvousQueue| - |r.lp.rendezvousQueue|
    ensures forall j :: 0 <= j < |r.out| ==>
              r.out[j] == Send(RollbackNotice(lay, lp.rendezvousQueue[|lp.rendezvousQueue| - 1 - j]))
  {
    var q := lp.rendezvousQueue;
    var k := SplitPoint(q, simtime);
    Update(lp.(rendezvousQueue := q[..k]), RollbackNotices(lay, q, k))
  }

  // ---------------------------------------------------------------------------------------
  // anti_control_message

  /** The session behind `m` was found at `queueIn[k]`: undo it. */
  function ConsumeRendezvous(env: Env, lp: LP, m: Msg, k: nat): (r: Reply)
    requires k < |lp.queueIn|
    ensures !r.forward
    ensures r.lp.queueIn == lp.queueIn[k := lp.queueIn[k].(rendezvousMark := 0)]
    ensures lp.queueIn[k].timestamp <= lp.lvt ==>
              && r.lp.state == Rollback
              && r.lp.bound.Some?
              && BoundFor(lp.queueIn, k, r.lp.bound.value)
              && r.out == (if env.Anchors(m.receiver, lp.queueIn[r.lp.bound.value].timestamp)
                           then [RollbackGroup(lp.queueIn[k], m.receiver)] else [])
    ensures lp.queueIn[k].timestamp > lp.lvt ==>
              r.lp.state == lp.state && r.lp.bound == lp.bound && r.out == []
    ensures lp.waitOnRendezvous == m.rendezvousMark ==>
              r.lp.waitOnRendezvous == 0 && r.lp.ecsIndex == 0
    ensures lp.waitOnRendezvous != m.rendezvousMark ==>
              r.lp.waitOnRendezvous == lp.waitOnRendezvous && r.lp.ecsIndex == lp.ecsIndex
    ensures r.lp == lp.(state := r.lp.state, bound := r.lp.bound, queueIn := r.lp.queueIn,
                        waitOnRendezvous := r.lp.waitOnRendezvous, ecsIndex := r.lp.ecsIndex)
  {
    var q := lp.queueIn;
    var entry := q[k];
    var past := entry.timestamp <= lp.lvt;
    var b := WalkBack(q, k, k);
    var out := if past && env.Anchors(m.receiver, q[b].timestamp)
               then [RollbackGroup(entry, m.receiver)] else [];
    var rolled := if past then lp.(bound := Some(b), state := Rollback) else lp;
    var consumed := rolled.(queueIn := q[k := entry.(rendezvousMark := 0)]);
    var released := if lp.waitOnRendezvous == m.rendezvousMark
                    then consumed.(ecsIndex := 0, waitOnRendezvous := 0) else consumed;
    Reply(released, out, false)
  }

  /** `m` is a rendezvous rollback whose session sits at `queueIn[k]`, the match closest to the tail. */
  predicate SessionAt(env: Env, lp: LP, m: Msg, k: nat) {
    m.msgType == env.layout.rollback && IsLastWithMark(lp.queueIn, m.rendezvousMark, k)
  }

  /**
   Filters an inbound antimessage. A `RENDEZVOUS_ROLLBACK` is always consumed here; when the
   receiver's input queue holds its session, the entry closest to the tail is consumed and,
   if already executed, the receiver is sent into rollback with `bound` walked back past the
   entries at or after it.
   */
  function AntiControlMessage(env: Env, lp: LP, m: Msg): (r: Reply)
    ensures m.msgType != env.layout.rollback ==> r == Reply(lp, [], true)
    ensures m.msgType == env.layout.rollback ==> !r.forward
    ensures m.msgType == env.layout.rollback
            && (forall i :: 0 <= i < |lp.queueIn| ==> lp.queueIn[i].rendezvousMark != m.rendezvousMark)
            ==> r == Reply(lp, [], false)
    ensures forall k: nat :: SessionAt(env, lp, m, k) ==>
              r.lp.queueIn == lp.queueIn[k := lp.queueIn[k].(rendezvousMark := 0)]
    ensures forall k: nat :: SessionAt(env, lp, m, k) && lp.queueIn[k].timestamp <= lp.lvt ==>
              && r.lp.state == Rollback
              && r.lp.bound.Some?
              && BoundFor(lp.queueIn, k, r.lp.bound.value)
              && r.out == (if env.Anchors(m.receiver, lp.queueIn[r.lp.bound.value].timestamp)
                           then [RollbackGroup(lp.queueIn[k], m.receiver)] else [])
    ensures forall k: nat :: SessionAt(env, lp, m, k) && lp.queueIn[k].timestamp > lp.lvt ==>
              r.lp.state == lp.state && r.lp.bound == lp.bound && r.out == []
    ensures m.msgType == env.layout.rollback && lp.waitOnRendezvous == m.rendezvousMark
            && (exists i :: 0 <= i < |lp.queueIn| && lp.queueIn[i].rendezvousMark == m.rendezvousMark) ==>
              r.lp.waitOnRendezvous == 0 && r.lp.ecsIndex == 0
    ensures lp.waitOnRendezvous != m.rendezvousMark ==>
              r.lp.waitOnRendezvous == lp.waitOnRendezvous && r.lp.ecsIndex == lp.ecsIndex
    ensures r.lp == lp.(state := r.lp.state, bound := r.lp.bound, queueIn := r.lp.queueIn,
                        waitOnRendezvous := r.lp.waitOnRendezvous, ecsIndex := r.lp.ecsIndex)
  {
    if m.msgType != env.layout.rollback then Reply(lp, [], true)
    else match LastWithMark(lp.queueIn, m.rendezvousMark)
      case None => Reply(lp, [], false)
      case Some(k) => ConsumeRendezvous(env, lp, m, k)
  }

  // ---------------------------------------------------------------------------------------
  // reprocess_control_msg

  /** Whether `m` is re-executed during silent execution after a rollback. */
  function ReprocessControlMsg(lay: Layout, m: Msg): (r: bool)
    ensures r <==> m.msgType < lay.minControl
    ensures r ==> !lay.IsControl(m.msgType)
  {
    m.msgType < lay.minControl
  }

  // ---------------------------------------------------------------------------------------
  // receive_control_msg

  /** Receive-time effect of a `RENDEZVOUS_ACK`. */
  function ReceiveAck(env: Env, lp: LP, g: Group, m: Msg): (r: Step)
    ensures r.out == [] && !r.forward
    ensures lp.state == Rollback || lp.waitOnRendezvous != m.rendezvousMark ==>
              r.lp == lp && r.group == g
    ensures lp.state != Rollback && lp.waitOnRendezvous == m.rendezvousMark ==>
              && r.lp == lp.(state := ReadyForSynch)
              && r.group == (if env.Anchors(m.receiver, m.timestamp)
                             then g.(state := GroupReadyForSynch) else g)
  {
    if lp.state == Rollback || lp.waitOnRendezvous != m.rendezvousMark then Step(lp, g, [], false)
    else
      var group := if env.Anchors(m.receiver, m.timestamp) then g.(state := GroupReadyForSynch) else g;
      Step(lp.(state := ReadyForSynch), group, [], false)
  }

  /**
   An UNBLOCK opens a group log round: the LP is not rolling back, its state was logged, it
   anchors its group at the UNBLOCK's time, and the group has more than one member.
   */
  predicate OpensLogRound(env: Env, lp: LP, g: Group, m: Msg) {
    && lp.state != Rollback
    && env.logTaken
    && env.Anchors(m.receiver, m.timestamp)
    && g.totLP > 1
  }

  /** Receive-time effect of a `RENDEZVOUS_UNBLOCK`. */
  function ReceiveUnblock(env: Env, lp: LP, g: Group, m: Msg): (r: Step)
    ensures !r.forward
    ensures lp.state == Rollback ==> r == Step(lp, g, [], false)
    ensures lp.state != Rollback ==>
              r.out == [SetCurrent(m.receiver, m.timestamp)] + Snapshot(m.receiver)
                       + (if OpensLogRound(env, lp, g, m)
                          then [ForceGroupCheckpoint(m.receiver), SendOutgoing(m.receiver)] else [])
                       + [ClearCurrent]
    ensures lp.state != Rollback && lp.waitOnRendezvous == m.rendezvousMark ==>
              r.lp == lp.(waitOnRendezvous := 0, waitOnObject := 0, state := Ready)
    ensures lp.waitOnRendezvous != m.rendezvousMark ==> r.lp == lp
    ensures OpensLogRound(env, lp, g, m) ==>
              r.group == g.(state := GroupWaitForLog, counterLog := g.totLP)
    ensures !OpensLogRound(env, lp, g, m) ==>
              r.group == (if lp.state != Rollback && lp.waitOnRendezvous == m.rendezvousMark
                             && env.Anchors(m.receiver, m.timestamp)
                          then g.(state := GroupReady) else g)
  {
    if lp.state == Rollback then Step(lp, g, [], false)
    else
      var lid, now := m.receiver, m.timestamp;
      var matched := lp.waitOnRendezvous == m.rendezvousMark;
      var released := if matched then lp.(waitOnRendezvous := 0, waitOnObject := 0, state := Ready) else lp;
      var g1 := if matched && env.Anchors(lid, now) then g.(state := GroupReady) else g;
      var groupLog := OpensLogRound(env, lp, g, m);
      var g2 := if groupLog then g1.(state := GroupWaitForLog, counterLog := g1.totLP) else g1;
      var flush := if groupLog then [ForceGroupCheckpoint(lid), SendOutgoing(lid)] else [];
      Step(released, g2, [SetCurrent(lid, now)] + Snapshot(lid) + flush + [ClearCurrent], false)
  }

  /**
   Dequeue-time classification of `m`. Application messages and the control messages that
   act at execution time pass through untouched; ACK and UNBLOCK act here and are consumed;
   any other control type is fatal.
   */
  function ReceiveControlMsg(env: Env, lp: LP, g: Group, m: Msg): (r: Outcome<Step>)
    ensures !env.layout.IsControl(m.msgType) ==> r == Ok(Step(lp, g, [], true))
    ensures m.msgType in {env.layout.start, env.layout.rollback, env.layout.nullLog,
                          env.layout.synchGroup, env.layout.closeGroup} ==>
              r == Ok(Step(lp, g, [], true))
    ensures r.Fatal? <==> env.layout.IsControl(m.msgType) && !env.layout.IsKnownTag(m.msgType)
    ensures r.Ok? ==> (r.value.forward <==> m.msgType !in {env.layout.ack, env.layout.unblock})
    ensures m.msgType == env.layout.ack ==> r == Ok(ReceiveAck(env, lp, g, m))
    ensures m.msgType == env.layout.unblock ==> r == Ok(ReceiveUnblock(env, lp, g, m))
  {
    var lay, t := env.layout, m.msgType;
    if !lay.IsControl(t) then Ok(Step(lp, g, [], true))
    else if t == lay.ack then Ok(ReceiveAck(env, lp, g, m))
    else if t == lay.unblock then Ok(ReceiveUnblock(env, lp, g, m))
    else if lay.IsKnownTag(t) then Ok(Step(lp, g, [], true))
    else Fatal("Trying to handle a control message which is meaningless at receive time")
  }

  // ---------------------------------------------------------------------------------------
  // process_control_msg

  /**
   One vote on a group counter `counter_synch`: the vote that completes the membership
   resets the counter and moves the group to `closed`.
   */
  function CountVote(g: Group, closed: GroupState): (g': Group)
    ensures g'.totLP == g.totLP && g'.counterLog == g.counterLog
            && g'.initialGroupTime == g.initialGroupTime
    ensures 0 <= g.counterSynch < g.totLP ==> 0 <= g'.counterSynch < g'.totLP
    ensures g.counterSynch + 1 == g.totLP ==> g'.counterSynch == 0 && g'.state == closed
    ensures g.counterSynch + 1 != g.totLP ==> g' == g.(counterSynch := g.counterSynch + 1)
  {
    var votes := g.counterSynch + 1;
    if votes == g.totLP then g.(counterSynch := 0, state := closed)
    else g.(counterSynch := votes)
  }

  /**
   A START casts a vote on its group's synchronisation: the group module is on, the receiver
   does not anchor the group, the START falls in the group's time window, and it is the
   message the group recorded as its initial one.
   */
  predicate StartVotes(env: Env, g: Group, m: Msg) {
    && env.groupModule
    && !env.startsGroup(m.receiver)
    && env.inGroupWindow(m.timestamp)
    && g.initialGroupTime == Some(m)
  }

  /** Execution-time effect of a `RENDEZVOUS_START`. */
  function ProcessStart(env: Env, lp: LP, g: Group, m: Msg): (r: Step)
    ensures r.lp == lp.(rendezvousQueue := InsertByTime(lp.rendezvousQueue, m),
                        waitOnRendezvous := m.rendezvousMark, state := WaitForUnblock)
    ensures !r.forward && r.out == [Send(AckFor(env.layout, m))]
    ensures !env.groupModule ==> r.group == g
    ensures r.group.totLP == g.totLP && r.group.counterLog == g.counterLog
    ensures 0 <= g.counterSynch < g.totLP ==> 0 <= r.group.counterSynch < r.group.totLP
    ensures env.Anchors(m.receiver, m.timestamp) ==> r.group == g.(state := GroupWaitForUnblock)
    ensures StartVotes(env, g, m) ==> r.group == CountVote(g, GroupWaitForUnblock)
    ensures StartVotes(env, g, m) && g.counterSynch + 1 == g.totLP ==>
              r.group.counterSynch == 0 && r.group.state == GroupWaitForUnblock
    ensures !env.Anchors(m.receiver, m.timestamp) && !StartVotes(env, g, m) ==> r.group == g
  {
    var lid, now := m.receiver, m.timestamp;
    var blocked := lp.(rendezvousQueue := InsertByTime(lp.rendezvousQueue, m),
                       waitOnRendezvous := m.rendezvousMark, state := WaitForUnblock);
    var g1 := if env.Anchors(lid, now) then g.(state := GroupWaitForUnblock) else g;
    var counts := env.groupModule && !env.startsGroup(lid) && env.inGroupWindow(now)
                  && g1.initialGroupTime == Some(m);
    var g2 := if counts then CountVote(g1, GroupWaitForUnblock) else g1;
    Step(blocked, g2, [Send(AckFor(env.layout, m))], false)
  }

  /** Execution-time effect of a `NULL_LOG_MESSAGE`: one vote on the group's log counter. */
  function ProcessNullLog(env: Env, lp: LP, g: Group, m: Msg): (r: Step)
    ensures !r.forward
    ensures !env.groupModule ==> r == Step(lp, g, [], false)
    ensures env.groupModule ==>
              && r.lp == lp.(state := WaitForLog)
              && r.group == (if g.counterLog == 1 then g.(counterLog := 0, state := GroupReady)
                             else g.(counterLog := g.counterLog - 1))
              && r.out == (if m.sender != m.receiver then Snapshot(m.receiver) else [])
  {
    if !env.groupModule then Step(lp, g, [], false)
    else
      var remaining := g.counterLog - 1;
      var group := if remaining == 0 then g.(counterLog := 0, state := GroupReady)
                   else g.(counterLog := remaining);
      var out := if m.sender != m.receiver then Snapshot(m.receiver) else [];
      Step(lp.(state := WaitForLog), group, out, false)
  }

  /** Execution-time effect of a `CLOSE_GROUP`. */
  function ProcessCloseGroup(env: Env, lp: LP, g: Group, m: Msg): (r: Step)
    ensures r.lp == lp && r.group == g && !r.forward
    ensures r.out == (if env.groupModule then Snapshot(m.receiver) else [])
  {
    Step(lp, g, if env.groupModule then Snapshot(m.receiver) else [], false)
  }

  /** Execution-time effect of a `SYNCH_GROUP`: one vote on the group's synchronisation. */
  function ProcessSynchGroup(env: Env, lp: LP, g: Group, m: Msg): (r: Outcome<Step>)
    ensures r.Fatal? <==> env.groupModule && g.state == GroupReadyForSynch
    ensures !env.groupModule || g.state !in {GroupWaitForGroup, GroupReadyForSynch} ==>
              r == Ok(Step(lp, g, [], false))
    ensures env.groupModule && g.state == GroupWaitForGroup ==>
              && r.Ok? && !r.value.forward
              && r.value.lp == lp.(state := WaitForGroup)
              && r.value.group == CountVote(g, GroupReady)
              && r.value.out == Snapshot(m.receiver)
  {
    if !env.groupModule then Ok(Step(lp, g, [], false))
    else if g.state != GroupWaitForGroup then
      if g.state == GroupReadyForSynch then Fatal("State not right")
      else Ok(Step(lp, g, [], false))
    else Ok(Step(lp.(state := WaitForGroup), CountVote(g, GroupReady), Snapshot(m.receiver), false))
  }

  /**
   Execution-time handling of `m`. Application messages pass through; START, NULL_LOG_MESSAGE,
   CLOSE_GROUP and SYNCH_GROUP act and are consumed; every other control type, ACK, UNBLOCK and
   ROLLBACK included, has no case and is fatal.
   */
  function ProcessControlMsg(env: Env, lp: LP, g: Group, m: Msg): (r: Outcome<Step>)
    ensures !env.layout.IsControl(m.msgType) ==> r == Ok(Step(lp, g, [], true))
    ensures r.Ok? ==> (r.value.forward <==> !env.layout.IsControl(m.msgType))
    ensures r.Fatal? <==>
              && env.layout.IsControl(m.msgType)
              && (|| m.msgType !in {env.layout.start, env.layout.nullLog,
                                    env.layout.closeGroup, env.layout.synchGroup}
                  || (m.msgType == env.layout.synchGroup && env.groupModule
                      && g.state == GroupReadyForSynch))
    ensures m.msgType in {env.layout.ack, env.layout.unblock, env.layout.rollback} ==> r.Fatal?
    ensures m.msgType == env.layout.start ==> r == Ok(ProcessStart(env, lp, g, m))
    ensures m.msgType == env.layout.nullLog ==> r == Ok(ProcessNullLog(env, lp, g, m))
    ensures m.msgType == env.layout.closeGroup ==> r == Ok(ProcessCloseGroup(env, lp, g, m))
    ensures m.msgType == env.layout.synchGroup ==> r == ProcessSynchGroup(env, lp, g, m)
  {
    var lay, t := env.layout, m.msgType;
    if !lay.IsControl(t) then Ok(Step(lp, g, [], true))
    else if t == lay.start then Ok(ProcessStart(env, lp, g, m))
    else if t == lay.nullLog then Ok(ProcessNullLog(env, lp, g, m))
    else if t == lay.closeGroup then Ok(ProcessCloseGroup(env, lp, g, m))
    else if t == lay.synchGroup then ProcessSynchGroup(env, lp, g, m)
    else Fatal("Trying to handle a control message which is meaningless at schedule time")
  }
}

=== FILE: control_properties.dfy ===
/**
 Properties of the control layer that relate several handler calls: rollback composition and
 idempotence, the START / ACK / UNBLOCK / ROLLBACK round trips between the two sides of a
 rendezvous, the antimessage's effect on a sorted input queue, and the group vote rounds.
 */
module ControlProperties {
  import opened Wrappers
  import opened Messages
  import opened LogicalProcess
  import opened Queues
  import opened Control

  // ---------------------------------------------------------------------------------------
  // Rolling the rendezvous queue back

  /** On a timestamp-sorted queue nothing later than the rollback time survives, and the rest stays sorted. */
  lemma RollbackLeavesNothingLater(lay: Layout, lp: LP, simtime: Time)
    requires Sorted(lp.rendezvousQueue)
    ensures var kept := RollbackControlMessage(lay, lp, simtime).lp.rendezvousQueue;
            && (forall i :: 0 <= i < |kept| ==> kept[i].timestamp <= simtime)
            && Sorted(kept)
  {
    SortedPrefixNotLater(lp.rendezvousQueue, simtime);
  }

  /**
   Rolling back to `t1` and then to an earlier `t2` leaves the same queue as rolling back to
   `t2` at once, and sends the same antimessages in the same order.
   */
  lemma {:induction false} RollbackComposes(lay: Layout, lp: LP, t1: Time, t2: Time)
    requires t2 <= t1
    ensures var first := RollbackControlMessage(lay, lp, t1);
            var second := RollbackControlMessage(lay, first.lp, t2);
            var direct := RollbackControlMessage(lay, lp, t2);
            second.lp == direct.lp && first.out + second.out == direct.out
  {
    var q := lp.rendezvousQueue;
    var k1 := SplitPoint(q, t1);
    var k2 := SplitPoint(q, t2);
    assert k2 <= k1;
    SplitPointUnique(q[..k1], t2, k2);
    assert q[..k1][..k2] == q[..k2];
    NoticesSplit(lay, q, k1, k2);
  }

  /** The antimessages for `q[k2..]` are those for `q[k1..]` followed by those for `q[k2..k1]`. */
  lemma {:induction false} NoticesSplit(lay: Layout, q: seq<Msg>, k1: nat, k2: nat)
    requires k2 <= k1 <= |q|
    ensures RollbackNotices(lay, q, k1) + RollbackNotices(lay, q[..k1], k2) == RollbackNotices(lay, q, k2)
    decreases |q|
  {
    if k1 == |q| {
      assert q[..k1] == q;
    } else {
      var front := q[..|q| - 1];
      NoticesSplit(lay, front, k1, k2);
      assert front[..k1] == q[..k1];
    }
  }

  /** A second rollback to the same time finds nothing to undo. */
  lemma RollbackIdempotent(lay: Layout, lp: LP, simtime: Time)
    ensures var once := RollbackControlMessage(lay, lp, simtime);
            RollbackControlMessage(lay, once.lp, simtime) == Update(once.lp, [])
  {
    RollbackComposes(lay, lp, simtime, simtime);
  }

  // ---------------------------------------------------------------------------------------
  // The two sides of a rendezvous

  /**
   Executing a START at time later than everything queued, then rolling back before it,
   restores the rendezvous queue and sends exactly one rollback antimessage, which goes to the
   LP the ACK went to and carries the ACK's session mark.
   */
  lemma {:induction false} StartThenRollbackUndoes(env: Env, lp: LP, g: Group, m: Msg, t: Time)
    requires m.msgType == env.layout.start
    requires forall i :: 0 <= i < |lp.rendezvousQueue| ==> lp.rendezvousQueue[i].timestamp <= t
    requires t < m.timestamp
    ensures ProcessControlMsg(env, lp, g, m).Ok?
    ensures var started := ProcessControlMsg(env, lp, g, m).value;
            var undone := RollbackControlMessage(env.layout, started.lp, t);
            && undone.lp.rendezvousQueue == lp.rendezvousQueue
            && undone.out == [Send(RollbackNotice(env.layout, m))]
            && undone.out[0].msg.receiver == started.out[0].msg.receiver
            && undone.out[0].msg.rendezvousMark == started.out[0].msg.rendezvousMark
  {
    var q := lp.rendezvousQueue;
    SplitPointUnique(q, m.timestamp, |q|);
    assert InsertByTime(q, m) == q + [m];
    var started := ProcessControlMsg(env, lp, g, m).value;
    assert started.lp.rendezvousQueue == q + [m];
    SplitPointUnique(q + [m], t, |q|);
    assert (q + [m])[..|q|] == q;
    assert RollbackNotices(env.layout, q + [m], |q|) == [Send(RollbackNotice(env.layout, m))];
  }

  /** The ACK a START produces, delivered to the waiting starter, makes it ready to synchronise. */
  lemma AckReleasesStarter(env: Env, b: LP, gb: Group, m: Msg, a: LP, ga: Group)
    requires m.msgType == env.layout.start
    requires a.state != Rollback && a.waitOnRendezvous == m.rendezvousMark
    ensures ProcessControlMsg(env, b, gb, m).Ok?
    ensures var ack := ProcessControlMsg(env, b, gb, m).value.out[0].msg;
            var got := ReceiveControlMsg(env, a, ga, ack);
            && ack.receiver == m.sender
            && got.Ok? && !got.value.forward
            && got.value.lp == a.(state := ReadyForSynch)
  {
  }

  /** An UNBLOCK for the session a START opened releases the blocked LP and ends the session. */
  lemma StartThenUnblockReleases(env: Env, lp: LP, g: Group, m: Msg, u: Msg)
    requires m.msgType == env.layout.start && u.msgType == env.layout.unblock
    requires u.rendezvousMark == m.rendezvousMark
    ensures ProcessControlMsg(env, lp, g, m).Ok?
    ensures var s := ProcessControlMsg(env, lp, g, m).value;
            var r := ReceiveControlMsg(env, s.lp, s.group, u);
            && s.lp.state == WaitForUnblock && s.lp.waitOnRendezvous == m.rendezvousMark
            && r.Ok?
            && r.value.lp == s.lp.(state := Ready, waitOnRendezvous := 0, waitOnObject := 0)
  {
  }

  /**
   The rollback antimessage for a START reaches the starter; when the starter holds the
   session in its input queue at or before its virtual time, it rolls back with `bound` at or
   before that entry, and the entry's session mark is consumed.
   */
  lemma NoticeRollsBackStarter(env: Env, a: LP, m: Msg, k: nat)
    requires IsLastWithMark(a.queueIn, m.rendezvousMark, k)
    requires a.queueIn[k].timestamp <= a.lvt
    ensures var notice := RollbackNotice(env.layout, m);
            var r := AntiControlMessage(env, a, notice);
            && notice.receiver == m.sender
            && !r.forward
            && r.lp.state == Rollback
            && r.lp.bound.Some? && r.lp.bound.value <= k
            && |r.lp.queueIn| == |a.queueIn| && r.lp.queueIn[k].rendezvousMark == 0
  {
    assert SessionAt(env, a, RollbackNotice(env.layout, m), k);
  }

  /** A session mark held by exactly one input-queue entry is consumed once: a repeat does nothing. */
  lemma AntiIdempotent(env: Env, lp: LP, m: Msg, k: nat)
    requires m.msgType == env.layout.rollback && m.rendezvousMark != 0
    requires k < |lp.queueIn| && lp.queueIn[k].rendezvousMark == m.rendezvousMark
    requires forall i :: 0 <= i < |lp.queueIn| && i != k ==> lp.queueIn[i].rendezvousMark != m.rendezvousMark
    ensures var once := AntiControlMessage(env, lp, m);
            AntiControlMessage(env, once.lp, m) == Reply(once.lp, [], false)
  {
    assert SessionAt(env, lp, m, k);
    var once := AntiControlMessage(env, lp, m);
    assert forall i :: 0 <= i < |once.lp.queueIn| ==> once.lp.queueIn[i].rendezvousMark != m.rendezvousMark;
  }

  /**
   On a timestamp-sorted input queue, the entries `bound` steps over are exactly the ties of
   the matched entry, and every entry up to `bound` (unless it stopped at the head) is earlier.
   */
  lemma AntiRollsBackTies(env: Env, lp: LP, m: Msg, k: nat)
    requires Sorted(lp.queueIn)
    requires SessionAt(env, lp, m, k) && lp.queueIn[k].timestamp <= lp.lvt
    ensures var r := AntiControlMessage(env, lp, m);
            && r.lp.bound.Some?
            && r.lp.bound.value <= k
            && (forall i :: r.lp.bound.value < i <= k ==> lp.queueIn[i].timestamp == lp.queueIn[k].timestamp)
            && (forall i :: 0 <= i <= r.lp.bound.value && 0 < r.lp.bound.value ==>
                  lp.queueIn[i].timestamp < lp.queueIn[k].timestamp)
  {
    var r := AntiControlMessage(env, lp, m);
    SortedBoundSkipsTies(lp.queueIn, k, r.lp.bound.value);
  }

  // ---------------------------------------------------------------------------------------
  // The three filters agree on application traffic

  /** A message re-executed during silent execution is application traffic to both other filters. */
  lemma ReprocessOnlyApplication(env: Env, lp: LP, g: Group, m: Msg)
    requires ReprocessControlMsg(env.layout, m)
    ensures ReceiveControlMsg(env, lp, g, m) == Ok(Step(lp, g, [], true))
    ensures ProcessControlMsg(env, lp, g, m) == Ok(Step(lp, g, [], true))
  {
  }

  /**
   The converse fails above the control range: a type the receive- and execution-time filters
   pass to the application as an event is not re-executed during silent execution.
   */
  lemma ReprocessSkipsTypesAboveRange(env: Env, lp: LP, g: Group, m: Msg)
    requires m.msgType > env.layout.maxControl
    ensures ReceiveControlMsg(env, lp, g, m) == Ok(Step(lp, g, [], true))
    ensures ProcessControlMsg(env, lp, g, m) == Ok(Step(lp, g, [], true))
    ensures !ReprocessControlMsg(env.layout, m)
  {
  }

  // ---------------------------------------------------------------------------------------
  // ACK and UNBLOCK at receive time

  /** Receiving the same ACK twice has the effect of receiving it once. */
  lemma AckIdempotent(env: Env, lp: LP, g: Group, m: Msg)
    requires m.msgType == env.layout.ack
    ensures ReceiveControlMsg(env, lp, g, m).Ok?
    ensures var once := ReceiveControlMsg(env, lp, g, m).value;
            ReceiveControlMsg(env, once.lp, once.group, m) == Ok(once)
  {
  }

  /** An UNBLOCK for a session the LP no longer waits on changes nothing, yet still checkpoints and logs the LP. */
  lemma StaleUnblockStillSnapshots(env: Env, lp: LP, g: Group, m: Msg)
    requires m.msgType == env.layout.unblock
    requires lp.state != Rollback && lp.waitOnRendezvous != m.rendezvousMark
    ensures ReceiveControlMsg(env, lp, g, m).Ok?
    ensures var r := ReceiveControlMsg(env, lp, g, m).value;
            && r.lp == lp
            && ForceCheckpoint(m.receiver) in r.out && LogState(m.receiver) in r.out
            && r.out[|r.out| - 1] == ClearCurrent
  {
    var r := ReceiveControlMsg(env, lp, g, m).value;
    assert r.out[1] == ForceCheckpoint(m.receiver) && r.out[2] == LogState(m.receiver);
  }

  // ---------------------------------------------------------------------------------------
  // Releasing the peers of a rendezvous

  /** Once the peers are released there is no session left: a second release sends nothing. */
  lemma UnblockIdempotent(lay: Layout, lid: nat, lp: LP)
    requires lp.ecsIndex < |lp.ecsSynchTable|
    ensures var once := UnblockSynchronizedObjects(lay, lid, lp);
            && once.lp.ecsIndex < |once.lp.ecsSynchTable|
            && UnblockSynchronizedObjects(lay, lid, once.lp) == Update(once.lp, [])
  {
  }

  /** Each UNBLOCK sent on release frees the peer it is addressed to, if that peer waits on the session. */
  lemma UnblockReleasesPeers(env: Env, lid: nat, lp: LP, j: nat, peer: LP, gp: Group)
    requires lp.ecsIndex < |lp.ecsSynchTable|
    requires j < lp.ecsIndex
    requires peer.state != Rollback && peer.waitOnRendezvous == lp.waitOnRendezvous
    ensures var u := UnblockSynchronizedObjects(env.layout, lid, lp).out[j].msg;
            var r := ReceiveControlMsg(env, peer, gp, u);
            && u.receiver == lp.ecsSynchTable[j + 1]
            && r.Ok?
            && r.value.lp == peer.(waitOnRendezvous := 0, waitOnObject := 0, state := Ready)
  {
  }

  // ---------------------------------------------------------------------------------------
  // Group votes

  /** Executing a message never lets the synchronisation counter reach the group size. */
  lemma VoteNeverReachesGroupSize(env: Env, lp: LP, g: Group, m: Msg)
    requires 0 <= g.counterSynch < g.totLP
    ensures var r := ProcessControlMsg(env, lp, g, m);
            r.Ok? ==> 0 <= r.value.group.counterSynch < r.value.group.totLP
  {
    if m.msgType == env.layout.start {
      assert ProcessControlMsg(env, lp, g, m) == Ok(ProcessStart(env, lp, g, m));
    }
  }

  /** Receiving a message casts no synchronisation vote and leaves the group size alone. */
  lemma ReceiveCastsNoVote(env: Env, lp: LP, g: Group, m: Msg)
    ensures var r := ReceiveControlMsg(env, lp, g, m);
            r.Ok? ==> r.value.group.counterSynch == g.counterSynch && r.value.group.totLP == g.totLP
  {
    if m.msgType == env.layout.unblock {
      assert ReceiveControlMsg(env, lp, g, m) == Ok(ReceiveUnblock(env, lp, g, m));
    }
  }

  /** Executes the messages of `round`, each on its member's LP, threading the group record. */
  function ProcessRound(env: Env, g: Group, round: seq<(LP, Msg)>): Outcome<Group>
    decreases |round|
  {
    if round == [] then Ok(g)
    else match ProcessControlMsg(env, round[0].0, g, round[0].1)
      case Fatal(e) => Fatal(e)
      case Ok(s) => ProcessRound(env, s.group, round[1..])
  }

  /**
   A group waiting for its members, with `counterSynch` votes already in, closes the round
   once the remaining members' SYNCH_GROUPs arrive: it becomes READY with the counter reset.
   */
  lemma {:induction false} SynchRoundCloses(env: Env, g: Group, round: seq<(LP, Msg)>)
    requires env.groupModule
    requires forall i :: 0 <= i < |round| ==> round[i].1.msgType == env.layout.synchGroup
    requires g.state == GroupWaitForGroup
    requires 0 <= g.counterSynch && g.counterSynch + |round| == g.totLP && |round| >= 1
    ensures ProcessRound(env, g, round) == Ok(g.(state := GroupReady, counterSynch := 0))
    decreases |round|
  {
    var s := ProcessControlMsg(env, round[0].0, g, round[0].1);
    assert s.Ok?;
    if |round| == 1 {
      assert round[1..] == [];
    } else {
      SynchRoundCloses(env, s.value.group, round[1..]);
    }
  }

  /**
   After an UNBLOCK opens a group log round, one NULL_LOG_MESSAGE per member brings the group
   back to READY with the log counter at zero.
   */
  lemma {:induction false} LogRoundCloses(env: Env, lp: LP, g: Group, u: Msg, round: seq<(LP, Msg)>)
    requires u.msgType == env.layout.unblock
    requires OpensLogRound(env, lp, g, u)
    requires forall i :: 0 <= i < |round| ==> round[i].1.msgType == env.layout.nullLog
    requires |round| == g.totLP
    ensures ReceiveControlMsg(env, lp, g, u).Ok?
    ensures var logging := ReceiveControlMsg(env, lp, g, u).value.group;
            && logging.state == GroupWaitForLog
            && ProcessRound(env, logging, round).Ok?
            && ProcessRound(env, logging, round).value.state == GroupReady
            && ProcessRound(env, logging, round).value.counterLog == 0
  {
    var logging := ReceiveControlMsg(env, lp, g, u).value.group;
    LogVotesDrain(env, logging, round);
  }

  /** As many NULL_LOG_MESSAGEs as the log counter holds drive it to zero and the group to READY. */
  lemma {:induction false} LogVotesDrain(env: Env, g: Group, round: seq<(LP, Msg)>)
    requires env.groupModule
    requires forall i :: 0 <= i < |round| ==> round[i].1.msgType == env.layout.nullLog
    requires g.counterLog == |round| >= 1
    ensures ProcessRound(env, g, round).Ok?
    ensures ProcessRound(env, g, round).value.state == GroupReady
    ensures ProcessRound(env, g, round).value.counterLog == 0
    decreases |round|
  {
    var s := ProcessControlMsg(env, round[0].0, g, round[0].1);
    assert s.Ok?;
    if |round| == 1 {
      assert round[1..] == [];
    } else {
      LogVotesDrain(env, s.value.group, round[1..]);
    }
  }
}

=== FILE: lp_state.dfy ===
/**
 The per-LP record, the group (GLP) record, the side effects a handler asks of its
 collaborators, and the build configuration the control layer runs under.
 */
module LogicalProcess {
  import opened Wrappers
  import opened Messages

  /** Scheduling state of an LP. `Elsewhere` stands for every state only the scheduler sets. */
  datatype LPState =
    | Ready
    | Rollback
    | WaitForUnblock
    | ReadyForSynch
    | WaitForLog
    | WaitForGroup
    | Elsewhere

  /**
   One logical process. `bound` indexes `queueIn` (None is a NULL pointer); the peers of the
   current rendezvous sit in `ecsSynchTable[1..ecsIndex]`, slot 0 being unused.
   */
  datatype LP = LP(
    state: LPState,
    waitOnRendezvous: nat,
    waitOnObject: nat,
    ecsIndex: nat,
    ecsSynchTable: seq<nat>,
    rendezvousQueue: seq<Msg>,
    queueIn: seq<Msg>,
    bound: Option<nat>,
    lvt: Time)

  /** Group-level state of a GLP. */
  datatype GroupState =
    | GroupReady
    | GroupReadyForSynch
    | GroupWaitForUnblock
    | GroupWaitForLog
    | GroupWaitForGroup

  /** A group of LPs that synchronise as a unit, with its two vote counters. */
  datatype Group = Group(
    state: GroupState,
    totLP: nat,
    counterSynch: int,
    counterLog: int,
    initialGroupTime: Option<Msg>)

  /** A request to a collaborator, in the order the handler makes it. */
  datatype Action =
    | Send(msg: Msg)                 // Send
    | ForceCheckpoint(lid: nat)      // force_LP_checkpoint
    | LogState(lid: nat)             // LogState
    | SetCurrent(lid: nat, now: Time)  // current_lp, current_lvt := lid, now
    | ClearCurrent                   // current_lp, current_lvt := IDLE_PROCESS, INFTY
    | ForceGroupCheckpoint(lid: nat) // force_checkpoint_group
    | SendOutgoing(lid: nat)         // send_outgoing_msgs
    | RollbackGroup(from: Msg, lid: nat)  // rollback_group

  /**
   The build and the answers of collaborators this layer cannot see: `groupModule` is
   HAVE_GLP_SCH_MODULE, `startsGroup` is `check_start_group`, `inGroupWindow` is
   `verify_time_group`, and `logTaken` is what `LogState` answers for this call. The oracles
   answer the same way throughout one handler call, whatever the handler writes to the group.
   */
  datatype Env = Env(
    layout: ControlLayout,
    groupModule: bool,
    startsGroup: nat -> bool,
    inGroupWindow: Time -> bool,
    logTaken: bool)
  {
    /** `lid` anchors its group's synchronisation at time `t` (both group.h checks pass). */
    predicate Anchors(lid: nat, t: Time) {
      groupModule && startsGroup(lid) && inGroupWindow(t)
    }
  }
}

=== FILE: messages.dfy ===
/**
 Messages exchanged between logical processes (`msg_t` in src/core/core.h) and the
 control messages the rendezvous layer synthesises.
 */
module Messages {

  /** Simulated time (`simtime_t`). The control layer only compares times, never computes with them. */
  type Time = real

  /** Size in bytes of the opaque payload every message carries. */
  const MAX_EVENT_SIZE: nat := 1120

  /** Polarity of a message (`message_kind_t`). */
  datatype Kind = Positive | Negative | Other

  /** One message. `msgType` is the application event tag or a reserved control tag. */
  datatype Msg = Msg(
    sender: nat,
    receiver: nat,
    msgType: int,
    timestamp: Time,
    sendTime: Time,
    kind: Kind,
    mark: nat,
    rendezvousMark: nat,
    content: seq<bv8>,
    size: int)

  /**
   The numeric values of the reserved control tags. They are fixed by a header outside this
   model, so they are a parameter. The C `switch` statements only compile when the tags are
   distinct; that each tag lies in the control range is assumed, since a tag outside it
   would never get past the range checks in front of those `switch` statements.
   */
  datatype Layout = Layout(
    minControl: int,
    maxControl: int,
    start: int,
    ack: int,
    unblock: int,
    rollback: int,
    nullLog: int,
    synchGroup: int,
    closeGroup: int)
  {
    /** The type lies in the reserved control range `[MIN_VALUE_CONTROL, MAX_VALUE_CONTROL]`. */
    predicate IsControl(t: int) {
      minControl <= t <= maxControl
    }

    /** The type is one of the seven tags the handlers know. */
    predicate IsKnownTag(t: int) {
      t in {start, ack, unblock, rollback, nullLog, synchGroup, closeGroup}
    }

    predicate Valid() {
      && IsControl(start) && IsControl(ack) && IsControl(unblock) && IsControl(rollback)
      && IsControl(nullLog) && IsControl(synchGroup) && IsControl(closeGroup)
      && start !in {ack, unblock, rollback, nullLog, synchGroup, closeGroup}
      && ack !in {unblock, rollback, nullLog, synchGroup, closeGroup}
      && unblock !in {rollback, nullLog, synchGroup, closeGroup}
      && rollback !in {nullLog, synchGroup, closeGroup}
      && nullLog !in {synchGroup, closeGroup}
      && synchGroup != closeGroup
    }
  }

  type ControlLayout = l: Layout | l.Valid() witness Layout(1, 7, 1, 2, 3, 4, 5, 6, 7)

  /** A message as `bzero` leaves it: every field zero, which makes the kind `positive`. */
  function Blank(): Msg {
    Msg(0, 0, 0, 0.0, 0.0, Positive, 0, 0, seq(MAX_EVENT_SIZE, _ => 0), 0)
  }

  /** The fields `bzero` leaves untouched in a built message: no identifier, no payload. */
  predicate Zeroed(n: Msg) {
    n.mark == 0 && n.size == 0 && n.content == Blank().content
  }

  /**
   The `RENDEZVOUS_ROLLBACK` control antimessage that undoes one rendezvous-queue entry: it
   goes back to the entry's sender, at the entry's time, carrying the entry's session mark.
   */
  function RollbackNotice(lay: Layout, entry: Msg): (n: Msg)
    ensures n.msgType == lay.rollback && n.kind == Other
    ensures n.sender == entry.receiver && n.receiver == entry.sender
    ensures n.timestamp == entry.timestamp && n.sendTime == entry.sendTime
    ensures n.rendezvousMark == entry.rendezvousMark
    ensures Zeroed(n)
  {
    Blank().(msgType := lay.rollback, sender := entry.receiver, receiver := entry.sender,
           timestamp := entry.timestamp, sendTime := entry.sendTime,
           rendezvousMark := entry.rendezvousMark, kind := Other)
  }

  /**
   The `RENDEZVOUS_ACK` that answers a `RENDEZVOUS_START`: a positive message back to the
   starter, sent and received at the START's time, for the START's session.
   */
  function AckFor(lay: Layout, start: Msg): (n: Msg)
    ensures n.msgType == lay.ack && n.kind == Positive
    ensures n.sender == start.receiver && n.receiver == start.sender
    ensures n.timestamp == start.timestamp && n.sendTime == start.timestamp
    ensures n.rendezvousMark == start.rendezvousMark
    ensures Zeroed(n)
  {
    Blank().(sender := start.receiver, receiver := start.sender, msgType := lay.ack,
           timestamp := start.timestamp, sendTime := start.timestamp, kind := Positive,
           rendezvousMark := start.rendezvousMark)
  }

  /** The `RENDEZVOUS_UNBLOCK` an LP sends to one peer it synchronised with. */
  function UnblockFor(lay: Layout, lid: nat, peer: nat, now: Time, session: nat): (n: Msg)
    ensures n.msgType == lay.unblock && n.kind == Positive
    ensures n.sender == lid && n.receiver == peer
    ensures n.timestamp == now && n.sendTime == now
    ensures n.rendezvousMark == session
    ensures Zeroed(n)
  {
    Blank().(sender := lid, receiver := peer, msgType := lay.unblock, timestamp := now,
           sendTime := now, kind := Positive, rendezvousMark := session)
  }
}

=== FILE: queues.dfy ===
/**
 The ordered-list operations the control layer performs on an LP's queues: the backward
 walk over later entries, the backward search by rendezvous mark, the walk that places
 `bound`, and the ordered insert.
 */
module Queues {
  import opened Wrappers
  import opened Messages

  /** Timestamps never decrease along the queue. */
  predicate Sorted(q: seq<Msg>) {
    forall i, j :: 0 <= i < j < |q| ==> q[i].timestamp <= q[j].timestamp
  }

  /**
   Walking back from the tail past every entry later than `t`: the number of entries that
   are left in front. Dropping `q[k..]` removes exactly the longest suffix later than `t`,
   and `k` is also where a new entry at time `t` goes, after its ties.
   */
  function SplitPoint(q: seq<Msg>, t: Time): (k: nat)
    ensures k <= |q|
    ensures k == 0 || q[k - 1].timestamp <= t
    ensures forall i :: k <= i < |q| ==> q[i].timestamp > t
    decreases |q|
  {
    if |q| == 0 || q[|q| - 1].timestamp <= t then |q|
    else SplitPoint(q[..|q| - 1], t)
  }

  /** The three facts of `SplitPoint`'s contract pin its value down. */
  lemma SplitPointUnique(q: seq<Msg>, t: Time, k: nat)
    requires k <= |q|
    requires k == 0 || q[k - 1].timestamp <= t
    requires forall i :: k <= i < |q| ==> q[i].timestamp > t
    ensures SplitPoint(q, t) == k
  {
  }

  /** On a sorted queue every entry in front of the split point is at or before `t`. */
  lemma SortedPrefixNotLater(q: seq<Msg>, t: Time)
    requires Sorted(q)
    ensures forall i :: 0 <= i < SplitPoint(q, t) ==> q[i].timestamp <= t
  {
    var k := SplitPoint(q, t);
    forall i | 0 <= i < k
      ensures q[i].timestamp <= t
    {
      assert q[i].timestamp <= q[k - 1].timestamp;
    }
  }

  /** `k` is the entry closest to the tail whose rendezvous mark is `mark`. */
  predicate IsLastWithMark(q: seq<Msg>, mark: nat, k: nat) {
    && k < |q|
    && q[k].rendezvousMark == mark
    && forall i :: k < i < |q| ==> q[i].rendezvousMark != mark
  }

  /** The backward search of `queue_in` for an entry carrying `mark`. */
  function LastWithMark(q: seq<Msg>, mark: nat): (r: Option<nat>)
    ensures r.None? <==> forall i :: 0 <= i < |q| ==> q[i].rendezvousMark != mark
    ensures r.Some? ==> IsLastWithMark(q, mark, r.value)
    decreases |q|
  {
    if |q| == 0 then None
    else if q[|q| - 1].rendezvousMark == mark then Some(|q| - 1)
    else LastWithMark(q[..|q| - 1], mark)
  }

  /** There is only one entry closest to the tail with a given mark. */
  lemma LastWithMarkUnique(q: seq<Msg>, mark: nat, k: nat)
    requires IsLastWithMark(q, mark, k)
    ensures LastWithMark(q, mark) == Some(k)
  {
  }

  /**
   Where `bound` ends when it walks back from the match `k`: at the nearest earlier entry
   strictly before the match's timestamp, or at the head; every entry stepped over is at or
   after the match's timestamp.
   */
  predicate BoundFor(q: seq<Msg>, k: nat, b: nat) {
    && b <= k < |q|
    && (b == 0 || q[b].timestamp < q[k].timestamp)
    && forall i :: b < i <= k ==> q[i].timestamp >= q[k].timestamp
  }

  /** The walk of `bound` from position `b`, one `list_prev` at a time. */
  function WalkBack(q: seq<Msg>, k: nat, b: nat): (r: nat)
    requires b <= k < |q|
    requires forall i :: b < i <= k ==> q[i].timestamp >= q[k].timestamp
    ensures BoundFor(q, k, r)
    decreases b
  {
    if q[b].timestamp < q[k].timestamp then b
    else if b == 0 then 0
    else WalkBack(q, k, b - 1)
  }

  /** On a sorted queue the entries `bound` stepped over are exactly the ties of the match. */
  lemma SortedBoundSkipsTies(q: seq<Msg>, k: nat, b: nat)
    requires Sorted(q)
    requires BoundFor(q, k, b)
    ensures forall i :: b < i <= k ==> q[i].timestamp == q[k].timestamp
    ensures forall i :: 0 <= i <= b && 0 < b ==> q[i].timestamp < q[k].timestamp
  {
    forall i | 0 <= i <= b && 0 < b
      ensures q[i].timestamp < q[k].timestamp
    {
      assert q[i].timestamp <= q[b].timestamp;
    }
  }

  /** `list_insert` keyed on the timestamp: `m` goes after every entry not later than it. */
  function InsertByTime(q: seq<Msg>, m: Msg): (r: seq<Msg>)
    ensures |r| == |q| + 1
    ensures multiset(r) == multiset(q) + multiset{m}
    ensures exists p :: 0 <= p <= |q| && r == q[..p] + [m] + q[p..]
                        && (p == 0 || q[p - 1].timestamp <= m.timestamp)
                        && (forall i :: p <= i < |q| ==> q[i].timestamp > m.timestamp)
    ensures Sorted(q) ==> Sorted(r)
  {
    var p := SplitPoint(q, m.timestamp);
    var r := q[..p] + [m] + q[p..];
    assert q == q[..p] + q[p..];
    assert multiset(r) == multiset(q[..p]) + multiset{m} + multiset(q[p..]);
    InsertKeepsSorted(q, m, p);
    r
  }

  lemma InsertKeepsSorted(q: seq<Msg>, m: Msg, p: nat)
    requires p <= |q|
    requires p == 0 || q[p - 1].timestamp <= m.timestamp
    requires forall i :: p <= i < |q| ==> q[i].timestamp > m.timestamp
    ensures Sorted(q) ==> Sorted(q[..p] + [m] + q[p..])
  {
    var r := q[..p] + [m] + q[p..];
    forall i, j | Sorted(q) && 0 <= i < j < |r|
      ensures r[i].timestamp <= r[j].timestamp
    {
      if i < p && j == p {
        assert q[i].timestamp <= q[p - 1].timestamp;
      } else if i < p && j > p {
        assert r[j] == q[j - 1];
      } else if i == p {
        assert r[j] == q[j - 1];
      } else if i > p {
        assert r[i] == q[i - 1] && r[j] == q[j - 1];
      }
    }
  }
}

=== FILE: wrappers.dfy ===
/** Failure-aware result types shared by the rest of the model. */
module Wrappers {

  /** A value that may be absent: the model's stand-in for a possibly NULL pointer. */
  datatype Option<+T> = None | Some(value: T)

  /** The outcome of a handler: a result, or a fatal `rootsim_error` that halts the simulation. */
  datatype Outcome<+T> = Ok(value: T) | Fatal(reason: string)
}
